=== FILE: README.md ===
# Inventory management: product rules and client derivations

This project is a Dafny model of the logic in an inventory-management system. The system is an ASP.NET products API with a React client. The model covers two parts.

**The products controller.** The repository behind it is modelled as a `ProductStore` class. It holds products keyed by identity, the order in which listings return them, and the next identity to hand out. Its methods are the endpoints:
- list, get by id, create, partial update, delete and CSV export;
- the update-stock endpoint, which appears only as the mapping from the repository's answer to the HTTP status.

The invariant `Valid()` holds before and after every method:
- each product sits under its own identity;
- no two products share a SKU, matching the unique SKU index of the database;
- the listing order names each stored product exactly once.

The DTO mapping, with its derived low-stock flag, is a pure function. The export is a loop that appends one line per product.

**The client components.**
- The product table: the case-insensitive search, the low-stock highlight, and the ±1 stock buttons with the guard on −1.
- The dashboard: total units in stock, the product count, the per-category counts, and the truncated low-stock alert.
- The dashboard charts:
  - the category pie with its six-colour cycle;
  - the "lowest ten by stock" bars, built by sorting the caller's array in place.
- The reorder page:
  - the selection set and how a checkbox toggles it;
  - the select-all box;
  - the priority badge colours;
  - the selected subset and the purchase-order list built from it;
  - the deficit and heading texts.
- The transaction table: the icon and badge colour per transaction type, and the fallback for a missing reference.

Prices are exact integer cents (`Models.Cents`).

JavaScript's `toLowerCase` is modelled as ASCII case folding. `includes` is modelled as substring occurrence, and `reduce` as a left fold. `new Set(...)` copies are modelled as fresh objects of a small `IdSet` class.

Modules:
- `Wrappers`: the Option and Result types.
- `Text`: lower-casing, substrings, integer printing and parsing, joining and splitting.
- `Seqs`: an order-preserving filter.
- `Models`: the product entity and its DTOs.
- `ProductsController`, `ProductList`, `Dashboard`, `DashboardCharts`, `ReorderSuggestions` and `TransactionHistory`: one module per source file.

## Model

| member | source | states |
|---|---|---|
| Text.ToLower | frontend/inventory-client/src/components/ProductList.tsx:21-23 | lower-casing keeps the length, lowers each character on its own, and leaves no upper-case letter |
| Text.ToLowerIdempotent | frontend/inventory-client/src/components/ProductList.tsx:21-23 | lower-casing twice equals lower-casing once |
| Text.Includes | frontend/inventory-client/src/components/ProductList.tsx:21-23 | `includes` holds exactly when the term occurs at some position of the text |
| Text.IncludesEmpty | frontend/inventory-client/src/components/ProductList.tsx:21-23 | every text includes the empty term |
| Text.NatToString | backend/InventoryAPI/Controllers/ProductsController.cs:202 | a natural number prints as a non-empty string of decimal digits with no leading zero (only 0 itself starts with '0') |
| Text.IntToString | backend/InventoryAPI/Controllers/ProductsController.cs:202 | an integer prints as '-' and digits only, with a leading '-' exactly when it is negative and no leading zero after the sign, as template literals and the invariant culture print it |
| Text.ParseNatToString | backend/InventoryAPI/Controllers/ProductsController.cs:202 | reading back the digits of a natural number gives the number |
| Text.IntToStringRoundTrip | backend/InventoryAPI/Controllers/ProductsController.cs:202 | reading back a printed integer gives the integer, negative ones included; `CountText` uses it for the stock and minimum columns |
| Text.IntToStringInjective | frontend/inventory-client/src/components/ReorderSuggestions.tsx:203 | different integers print differently |
| Text.Split | backend/InventoryAPI/Controllers/ProductsController.cs:201-203 | splitting a line always yields at least one field |
| Text.SplitJoin | backend/InventoryAPI/Controllers/ProductsController.cs:201-203 | joining fields that contain no separator and splitting again gives back the fields |
| Text.JoinEndsWithLast | backend/InventoryAPI/Controllers/ProductsController.cs:203 | a joined line ends with the separator and its last field |
| Seqs.Filter | frontend/inventory-client/src/components/ProductList.tsx:20 | `filter` keeps exactly the elements that pass, as an order-preserving subsequence: each kept element passes, and every passing element is kept as many times as it occurs |
| Seqs.FilterAll | frontend/inventory-client/src/components/ProductList.tsx:20-24 | a filter every element passes returns its input |
| Seqs.FilterAgreeing | frontend/inventory-client/src/components/ProductList.tsx:20-24 | two tests that agree on every element filter alike |
| ProductsController.SupplierName | backend/InventoryAPI/Controllers/ProductsController.cs:35 | `Supplier?.Name` is present exactly when the supplier is known, and is then that supplier's name |
| ProductsController.ToDto | backend/InventoryAPI/Controllers/ProductsController.cs:54-69 | the DTO copies every field and its low-stock flag is true exactly when stock ≤ minimum (equality counts as low) |
| ProductsController.ToLowStockDto | backend/InventoryAPI/Controllers/ProductsController.cs:78-93 | the low-stock endpoint's DTO always has the flag set and otherwise equals the ordinary DTO |
| ProductsController.LowStockDtoAgreesWithDerivedFlag | backend/InventoryAPI/Controllers/ProductsController.cs:91 | the hard-coded flag agrees with the derived one exactly for products with stock ≤ minimum |
| ProductsController.LowStockDtos | backend/InventoryAPI/Controllers/ProductsController.cs:74-96 | the low-stock endpoint returns one flagged DTO per repository row, in the repository's order |
| Models.IsLowStock | backend/InventoryAPI/Controllers/ProductsController.cs:37 | stock below the minimum is low, stock at the minimum is low too, and stock above it is not |
| ProductsController.StatusFor | backend/InventoryAPI/Controllers/ProductsController.cs:167-189 | update-stock and delete answer NotFound exactly when the repository reports failure, and NoContent otherwise |
| ProductsController.StatusText | backend/InventoryAPI/Controllers/ProductsController.cs:203 | the status word is "Active" exactly for active products and "Inactive" exactly for the others |
| ProductsController.CsvFields | backend/InventoryAPI/Controllers/ProductsController.cs:201-203 | an export line has nine fields in order: SKU, name, category, the formatted price, the stock and the minimum (each reading back as its number), the supplier's name or empty when there is none, the location, and the status |
| ProductsController.CountText | backend/InventoryAPI/Controllers/ProductsController.cs:202 | a printed stock count is decimal digits after an optional minus sign, and reads back as the same number |
| ProductsController.CsvRow | backend/InventoryAPI/Controllers/ProductsController.cs:201-203 | a line starts with the SKU and a comma and ends with a comma and the status word |
| ProductsController.CsvRowStatus | backend/InventoryAPI/Controllers/ProductsController.cs:203 | a line ends in ",Active" exactly when the product is active, and in ",Inactive" exactly when it is not |
| ProductsController.CsvRowColumns | backend/InventoryAPI/Controllers/ProductsController.cs:201-203 | when no free-text field contains a comma, a line splits back into exactly its nine fields |
| ProductsController.Updated | backend/InventoryAPI/Controllers/ProductsController.cs:153-160 | a field takes the supplied value when there is one and keeps its value otherwise |
| ProductsController.ListingOf | backend/InventoryAPI/Controllers/ProductsController.cs:23 | the listing holds the stored products in listing order |
| ProductsController.ProductStore.constructor | backend/InventoryAPI/Migrations/20251123113400_InitialCreate.cs:110-114 | an empty store satisfies the invariant, including SKU uniqueness |
| ProductsController.ProductStore.Listing | backend/InventoryAPI/Controllers/ProductsController.cs:23 | the repository listing holds, at each position, the product stored under the identity listed there |
| ProductsController.ProductStore.GetProducts | backend/InventoryAPI/Controllers/ProductsController.cs:20-42 | one DTO per product in listing order, each with the product's identity and the derived low-stock flag |
| ProductsController.ProductStore.GetProduct | backend/InventoryAPI/Controllers/ProductsController.cs:44-72 | NotFound exactly for an unknown id, otherwise Ok with that product's DTO |
| ProductsController.ProductStore.CreateProduct | backend/InventoryAPI/Controllers/ProductsController.cs:98-142 | a taken SKU gives BadRequest with the fixed message and leaves the store unchanged; otherwise one new product with a fresh identity and the request's fields is stored and listed last, and its DTO is returned as created; SKUs stay unique |
| ProductsController.ProductStore.UpdateProduct | backend/InventoryAPI/Controllers/ProductsController.cs:144-165 | an unknown id gives NotFound and changes nothing; otherwise each field changes exactly when the request supplies it, identity, SKU and stock stay, other products are untouched, and SKUs stay unique |
| ProductsController.ProductStore.DeleteProduct | backend/InventoryAPI/Controllers/ProductsController.cs:179-189 | the status is NotFound exactly when the id was absent, and then the listing is unchanged; otherwise the product is gone from the store and its one entry is cut out of the listing, the others keeping their order |
| ProductsController.ProductStore.ExportProducts | backend/InventoryAPI/Controllers/ProductsController.cs:191-204 | the header line, then exactly one line per product in listing order |
| ProductList.Matches | frontend/inventory-client/src/components/ProductList.tsx:21-23 | a product passes exactly when the lower-cased term occurs somewhere in its lower-cased name, SKU or category; every product passes the empty term |
| ProductList.FilterProducts | frontend/inventory-client/src/components/ProductList.tsx:20-24 | the shown rows are exactly the loaded products whose lower-cased name, SKU or category contains the lower-cased term, each as many times as it was loaded, kept in load order |
| ProductList.EmptySearchKeepsAll | frontend/inventory-client/src/components/ProductList.tsx:20-24 | an empty search shows every product |
| ProductList.SearchIgnoresTermCase | frontend/inventory-client/src/components/ProductList.tsx:21-23 | the search result does not depend on the case of the term |
| ProductList.RowClass | frontend/inventory-client/src/components/ProductList.tsx:147 | a row is highlighted exactly when its product is low on stock |
| ProductList.StockTextClass | frontend/inventory-client/src/components/ProductList.tsx:165 | the stock figure is red and bold exactly when the product is low on stock |
| ProductList.IncreaseButton | frontend/inventory-client/src/components/ProductList.tsx:170 | the "+" button asks for +1 and is never disabled |
| ProductList.DecreaseButton | frontend/inventory-client/src/components/ProductList.tsx:176-178 | the "−" button asks for −1 and is disabled exactly when stock ≤ 0 |
| ProductList.EnabledButtonsKeepStockNonNegative | frontend/inventory-client/src/components/ProductList.tsx:170-178 | from a non-negative stock, no enabled button asks for a change below zero |
| Dashboard.FoldStock | frontend/inventory-client/src/components/Dashboard.tsx:36 | over non-negative stock quantities the running total never falls below its start |
| Dashboard.FoldStockIsSum | frontend/inventory-client/src/components/Dashboard.tsx:36 | the `reduce` that computes `totalItems` equals the sum of the stock quantities |
| Dashboard.CountInCategory | frontend/inventory-client/src/components/Dashboard.tsx:38-41 | a category count never exceeds the number of products |
| Dashboard.DistributionAppend | frontend/inventory-client/src/components/Dashboard.tsx:39 | one `reduce` step adds one to the product's category, starting from zero |
| Dashboard.CountZeroWhenAbsent | frontend/inventory-client/src/components/Dashboard.tsx:38-41 | a category no product has counts zero |
| Dashboard.CountPositiveWhenPresent | frontend/inventory-client/src/components/Dashboard.tsx:38-41 | a category some product has counts at least one |
| Dashboard.CategoryDistribution | frontend/inventory-client/src/components/Dashboard.tsx:38-41 | the accumulator maps each present category, and nothing else, to its number of products, each at least one |
| Dashboard.DistributionSumsToCount | frontend/inventory-client/src/components/Dashboard.tsx:38-47 | the category counts add up to the product count |
| Dashboard.ComputeStats | frontend/inventory-client/src/components/Dashboard.tsx:34-49 | `totalItems` is the stock sum, `productCount` the number of products, the distribution the category counts, and the counts sum to `productCount` |
| Dashboard.LowStockAlertFor | frontend/inventory-client/src/components/Dashboard.tsx:133-155 | the alert shows exactly when there are low-stock products; it lists the first min(5, n) in order; the "+ n more" line appears exactly when n > 5; listed plus more is n |
| DashboardCharts.DistinctKeyCount | frontend/inventory-client/src/components/DashboardCharts.tsx:14 | a key listing without repeats names as many keys as it is long |
| DashboardCharts.CategorySlices | frontend/inventory-client/src/components/DashboardCharts.tsx:14-17 | one slice per category of the distribution, slice i for the i-th key of the entry order, each category exactly once and carrying its count, with slice i filled with colour i mod 6 |
| DashboardCharts.NeighbourColoursDiffer | frontend/inventory-client/src/components/DashboardCharts.tsx:5 | consecutive palette positions hold different colours |
| DashboardCharts.SliceColoursCycle | frontend/inventory-client/src/components/DashboardCharts.tsx:47 | neighbouring slices never share a colour, and the colours repeat every six slices |
| DashboardCharts.TruncateName | frontend/inventory-client/src/components/DashboardCharts.tsx:24 | names of at most 15 characters are unchanged; longer ones become their first 15 characters plus "..." |
| DashboardCharts.TruncateNameIdempotent | frontend/inventory-client/src/components/DashboardCharts.tsx:24 | truncating a label again leaves it alone |
| DashboardCharts.ToEntry | frontend/inventory-client/src/components/DashboardCharts.tsx:23-27 | a bar keeps its product's stock and minimum and carries its truncated name |
| DashboardCharts.StockData | frontend/inventory-client/src/components/DashboardCharts.tsx:22-27 | min(10, n) bars, bar i made from product i |
| DashboardCharts.StockDataLowest | frontend/inventory-client/src/components/DashboardCharts.tsx:21-22 | over sorted products, the bars are in non-decreasing stock order and no omitted product has less stock than a shown one |
| DashboardCharts.Swap | frontend/inventory-client/src/components/DashboardCharts.tsx:21 | exchanges two entries and keeps the array's multiset |
| DashboardCharts.SortByStock | frontend/inventory-client/src/components/DashboardCharts.tsx:21 | the caller's array is reordered in place into non-decreasing stock order, as a permutation of its old contents |
| DashboardCharts.BuildStockChart | frontend/inventory-client/src/components/DashboardCharts.tsx:20-27 | the caller's array ends sorted and permuted; the chart has min(10, n) bars in non-decreasing stock order, and no omitted product has less stock than a shown one |
| ReorderSuggestions.Toggled | frontend/inventory-client/src/components/ReorderSuggestions.tsx:43-51 | a toggle adds an absent id, removes a present one, and leaves every other id's membership alone |
| ReorderSuggestions.ToggleTwice | frontend/inventory-client/src/components/ReorderSuggestions.tsx:43-51 | toggling the same id twice restores the selection |
| ReorderSuggestions.IdSet.Empty | frontend/inventory-client/src/components/ReorderSuggestions.tsx:26 | `new Set()` has no members |
| ReorderSuggestions.IdSet.Copy | frontend/inventory-client/src/components/ReorderSuggestions.tsx:44 | `new Set(other)` has the same members as `other` |
| ReorderSuggestions.IdSet.Has | frontend/inventory-client/src/components/ReorderSuggestions.tsx:45 | `has` holds exactly for members |
| ReorderSuggestions.IdSet.Add | frontend/inventory-client/src/components/ReorderSuggestions.tsx:48 | `add` puts the id in and changes nothing else |
| ReorderSuggestions.IdSet.Delete | frontend/inventory-client/src/components/ReorderSuggestions.tsx:46 | `delete` takes the id out and changes nothing else |
| ReorderSuggestions.ToggleSelection | frontend/inventory-client/src/components/ReorderSuggestions.tsx:43-51 | the new selection is a fresh set equal to the toggled old one, and the old set is not mutated |
| ReorderSuggestions.Ids | frontend/inventory-client/src/components/ReorderSuggestions.tsx:148 | the id set holds exactly the suggestions' ids |
| ReorderSuggestions.SelectAll | frontend/inventory-client/src/components/ReorderSuggestions.tsx:146-151 | checking the header selects exactly the suggestions' ids, and unchecking empties the selection |
| ReorderSuggestions.HeaderChecked | frontend/inventory-client/src/components/ReorderSuggestions.tsx:145 | with an empty selection, after the header is unchecked, the box shows unchecked on every non-empty list, the only lists for which the page renders it |
| ReorderSuggestions.HeaderCheckedExactlyWhenAll | frontend/inventory-client/src/components/ReorderSuggestions.tsx:145 | for a selection of the page's ids (distinct), the header box shows checked exactly when every suggestion is selected; any partial selection shows it unchecked |
| ReorderSuggestions.IdsSnoc | frontend/inventory-client/src/components/ReorderSuggestions.tsx:148 | appending a suggestion adds its id to the id set |
| ReorderSuggestions.SelectAllChecksHeader | frontend/inventory-client/src/components/ReorderSuggestions.tsx:145-148 | with distinct ids, after select-all the header box shows as checked |
| ReorderSuggestions.SelectedSuggestions | frontend/inventory-client/src/components/ReorderSuggestions.tsx:65 | the selected list holds exactly the suggestions whose id is selected, each as many times as it occurs, in page order |
| ReorderSuggestions.GeneratePurchaseOrder | frontend/inventory-client/src/components/ReorderSuggestions.tsx:64-81 | with nothing selected it stops at the alert with no document; otherwise the order lists every selected suggestion, numbered from 1 in page order, with name, SKU, supplier and quantity |
| ReorderSuggestions.PriorityColor | frontend/inventory-client/src/components/ReorderSuggestions.tsx:53-62 | red exactly for "Critical", orange exactly for "High", yellow exactly for any other priority |
| ReorderSuggestions.DeficitLabel | frontend/inventory-client/src/components/ReorderSuggestions.tsx:203 | "At minimum" exactly when the deficit is ≤ 0; otherwise exactly the printed deficit followed by " below minimum" |
| ReorderSuggestions.DeficitLabelInjective | frontend/inventory-client/src/components/ReorderSuggestions.tsx:203 | different positive deficits get different labels |
| ReorderSuggestions.RestockingText | frontend/inventory-client/src/components/ReorderSuggestions.tsx:115 | the heading is "1 product need restocking" exactly when the count is 1, and otherwise the printed count followed by " products need restocking" |
| TransactionHistory.TransactionIcon | frontend/inventory-client/src/components/TransactionHistory.tsx:39-51 | green up-arrow exactly for "Purchase" and "Return", red down-arrow exactly for "Sale", blue refresh exactly for "Adjustment", gray package for anything else |
| TransactionHistory.TransactionColor | frontend/inventory-client/src/components/TransactionHistory.tsx:53-65 | the badge is green, red, blue or gray for exactly the same four classes of type |
| TransactionHistory.IconAndColorAgree | frontend/inventory-client/src/components/TransactionHistory.tsx:39-65 | two types share an icon exactly when they share a badge colour |
| TransactionHistory.ReferenceText | frontend/inventory-client/src/components/TransactionHistory.tsx:137 | a missing or empty reference shows as "-", any other is shown as is |

## Left out

- Repository internals. `GetAllAsync`, `GetByIdAsync`, `GetBySkuAsync`, `CreateAsync`, `UpdateAsync`, `UpdateStockAsync`, `DeleteAsync` and `GetLowStockProductsAsync` are not part of this model.
  - The store keeps listings in insertion order and hands out identities counting up from 1.
  - Delete is taken to remove the product when it is present.
  - The rows of the low-stock query are an input to `LowStockDtos`.
- ProductsController.StatusFor: update-stock is modelled only as the mapping from the repository's success flag to NotFound or NoContent. What the repository does to the stock is not modelled. No visible code keeps stock non-negative or records a transaction on a change. Described behaviour that promises either is therefore not modelled. The only visible guard is the client's disabled "−" button.
- ProductsController.ProductStore.CreateProduct: a new product's `IsActive` is taken as true (`DefaultIsActive`). The entity class that sets that default is not part of this model; all seeded rows are active.
- ProductsController.ProductStore.CreateProduct: the model accepts a product whose supplier is unknown, stores it, and answers CreatedAt; it then has no supplier name. In the source, the foreign key from products to suppliers makes the database refuse that insert, and nothing is stored.
- ProductsController.ProductStore.UpdateProduct: the model accepts an update that sets an unknown supplier and answers NoContent. In the source, the same foreign key makes the database refuse that save.
- ProductsController.ProductStore.ExportProducts: the model returns the lines as a sequence. How a price is printed depends on the server's culture, so it is a parameter `formatPrice`. The timestamped file name, UTF-8 encoding, line terminators and the download response are not modelled.
- ProductsController.ProductStore.ExportProducts: "one line per product" counts appended lines. A name, category, location or supplier name that contains a line break spreads one product over several lines of the file. As with commas, fields are not escaped.
- ProductsController.CsvFields: the stock and minimum columns are printed as the invariant culture prints them, with an ASCII '-' before a negative value. The server formats them with its current culture, whose negative sign may be another character (U+2212 in some cultures). Nothing visible keeps those values non-negative, so such a column may not read back as `Text.ParseInt` reads it.
- ProductsController.CsvRowColumns: fields are not quoted or escaped, so the nine-column reading holds only when no field contains a comma. The model claims nothing for other lines.
- Floating-point money: `totalValue`, summed and unit costs, `toFixed`, `toLocaleString` and the category-bar percentages are not modelled. The money lines and total of the purchase-order text are left out as well. Prices and costs are carried as integer cents only.
- Text.ToLower: ASCII case folding only. Unicode lower-casing is not modelled.
- DashboardCharts.TruncateName: the 15-character limit counts characters, while JavaScript's `length` and `substring` count UTF-16 code units. A name with characters outside the Basic Multilingual Plane is cut at a different place, and possibly inside a surrogate pair.
- Dashboard.CategoryDistribution: the plain object used as the accumulator behaves differently for category names such as "constructor" or "__proto__", which clash with inherited object properties. The model uses a map and does not capture that behaviour.
- DashboardCharts.CategorySlices: the order in which `Object.entries` lists the categories is a parameter, `keyOrder`. The model requires only that it names each category once; which order JavaScript chooses is not modelled.
- DashboardCharts.SortByStock: it is not proved that equal stocks keep their original order.
- DashboardCharts.BuildStockChart: products with equal stock may end up in any order among themselves. When such a tie straddles the tenth bar, the model leaves open which of the tied products are charted. The source's stable sort charts the ones loaded first.
- ReorderSuggestions.SelectAllChecksHeader: requires distinct suggestion ids, as the identity keys from the server are. With duplicate ids the header box compares a set's size with a list's length and would show unchecked. The model does not explore that case.
- The reorder planning behind the suggestions (deficit, quantity, cost and priority) is computed on the server and is not part of this model. The page only displays those values.
- The visibility of the "Generate PO" button, and the download of the order text are not modelled. The wording of the dashboard's "product(s) are running low" sentence is not modelled; its count is `LowStockAlert.count`.
- I/O and framework state: HTTP calls, `useState`, `useEffect`, `useMemo`, loading states, confirmations and alerts are not modelled. Only the values they carry are modelled.
- `BarcodeGenerator.tsx`, `ProductDetails.tsx`, `App.tsx` and `api.ts` are not part of this model. They are view code, routing and HTTP wrappers.

=== FILE: dashboard.dfy ===
/** The dashboard's figures: total units in stock, the number of products,
    the number of products per category, and the low-stock alert box. */
module Dashboard {
  import opened Wrappers
  import opened Models

  // ---------------------------------------------------------------------------
  // Total units in stock

  /** The sum of the stock quantities. */
  function SumStock(products: seq<ProductDto>): int
    decreases |products|
  {
    if |products| == 0 then 0 else products[0].stockQuantity + SumStock(products[1..])
  }

  /** The running stock total, adding the products' quantities from left to
      right onto the starting value `acc`. */
  function FoldStock(acc: int, products: seq<ProductDto>): (r: int)
    ensures (forall i :: 0 <= i < |products| ==> products[i].stockQuantity >= 0) ==> r >= acc
    decreases |products|
  {
    if |products| == 0 then acc else FoldStock(acc + products[0].stockQuantity, products[1..])
  }

  /** The fold started at 0 is the sum of the stock quantities. */
  lemma {:induction false} FoldStockIsSum(acc: int, products: seq<ProductDto>)
    ensures FoldStock(acc, products) == acc + SumStock(products)
    decreases |products|
  {
    if |products| > 0 {
      FoldStockIsSum(acc + products[0].stockQuantity, products[1..]);
    }
  }

  // ---------------------------------------------------------------------------
  // Products per category

  /** How many products are in `category`. */
  function CountInCategory(products: seq<ProductDto>, category: string): (n: nat)
    ensures n <= |products|
    decreases |products|
  {
    if |products| == 0 then 0
    else
      CountInCategory(products[..|products| - 1], category)
      + if products[|products| - 1].category == category then 1 else 0
  }

  /** The categories that occur among the products. */
  ghost function Categories(products: seq<ProductDto>): set<string> {
    set i | 0 <= i < |products| :: products[i].category
  }

  /** Every category present, mapped to its number of products. */
  ghost function Distribution(products: seq<ProductDto>): map<string, int> {
    map c | c in Categories(products) :: CountInCategory(products, c)
  }

  /** Appending a product adds one to its category, starting from zero. */
  lemma DistributionAppend(products: seq<ProductDto>, p: ProductDto)
    ensures Distribution(products + [p]) ==
            Distribution(products)[p.category :=
              (if p.category in Distribution(products) then Distribution(products)[p.category] else 0) + 1]
  {
    var ext := products + [p];
    assert ext[..|ext| - 1] == products;
    assert Categories(ext) == Categories(products) + {p.category} by {
      forall c | c in Categories(ext) ensures c in Categories(products) + {p.category} {
        var i :| 0 <= i < |ext| && ext[i].category == c;
        if i < |products| { assert products[i].category == c; }
      }
      forall c | c in Categories(products) ensures c in Categories(ext) {
        var i :| 0 <= i < |products| && products[i].category == c;
        assert ext[i].category == c;
      }
      assert ext[|products|].category == p.category;
    }
    if p.category !in Distribution(products) {
      assert CountInCategory(products, p.category) == 0 by {
        CountZeroWhenAbsent(products, p.category);
      }
    }
  }

  lemma {:induction false} CountZeroWhenAbsent(products: seq<ProductDto>, category: string)
    requires category !in Categories(products)
    ensures CountInCategory(products, category) == 0
    decreases |products|
  {
    if |products| > 0 {
      var front := products[..|products| - 1];
      assert Categories(front) <= Categories(products) by {
        forall c | c in Categories(front) ensures c in Categories(products) {
          var i :| 0 <= i < |front| && front[i].category == c;
          assert products[i].category == c;
        }
      }
      assert products[|products| - 1].category in Categories(products);
      CountZeroWhenAbsent(front, category);
    }
  }

  /** The per-category counts, built by walking the products once and
      raising the count of each product's category by one, a category seen
      for the first time starting from zero. */
  method CategoryDistribution(products: seq<ProductDto>) returns (acc: map<string, int>)
    ensures acc == Distribution(products)
    ensures acc.Keys == Categories(products)
    ensures forall c :: c in acc ==> acc[c] == CountInCategory(products, c) && acc[c] >= 1
  {
    acc := map[];
    for i := 0 to |products|
      invariant acc == Distribution(products[..i])
    {
      var category := products[i].category;
      var current := if category in acc then acc[category] else 0;
      acc := acc[category := current + 1];
      DistributionAppend(products[..i], products[i]);
      assert products[..i] + [products[i]] == products[..i + 1];
    }
    assert products[..|products|] == products;
    forall c | c in acc ensures acc[c] >= 1 {
      CountPositiveWhenPresent(products, c);
    }
  }

  lemma {:induction false} CountPositiveWhenPresent(products: seq<ProductDto>, category: string)
    requires category in Categories(products)
    ensures CountInCategory(products, category) >= 1
    decreases |products|
  {
    var front := products[..|products| - 1];
    if products[|products| - 1].category != category {
      var i :| 0 <= i < |products| && products[i].category == category;
      assert front[i].category == category;
      CountPositiveWhenPresent(front, category);
    }
  }

  /** The sum of a map's values. */
  ghost function MapSum(m: map<string, int>): int
    decreases |m|
  {
    if |m| == 0 then 0 else var k := AnyKey(m); m[k] + MapSum(m - {k})
  }

  /** Some key of a non-empty map. */
  ghost function AnyKey(m: map<string, int>): (k: string)
    requires |m| != 0
    ensures k in m
  {
    var k :| k in m; k
  }

  /** Taking one key out of a map leaves one fewer entry. */
  lemma RemoveOneKey(m: map<string, int>, k: string)
    requires k in m
    ensures |m - {k}| == |m| - 1
  {
  }

  /** Any key can be the one taken out first. */
  lemma {:induction false} MapSumRemove(m: map<string, int>, k: string)
    requires k in m
    ensures MapSum(m) == m[k] + MapSum(m - {k})
    decreases |m|
  {
    RemoveOneKey(m, k);
    var j := AnyKey(m);
    if j != k {
      RemoveOneKey(m, j);
      var mj, mk := m - {j}, m - {k};
      assert k in mj && j in mk;
      MapSumRemove(mj, k);
      MapSumRemove(mk, j);
      assert mj - {k} == mk - {j};
    }
  }

  /** Setting one entry changes the sum by the difference. */
  lemma MapSumUpdate(m: map<string, int>, k: string, v: int)
    ensures MapSum(m[k := v]) == MapSum(m) - (if k in m then m[k] else 0) + v
  {
    var m' := m[k := v];
    assert MapSum(m') == v + MapSum(m' - {k}) by { MapSumRemove(m', k); }
    if k in m {
      assert MapSum(m) == m[k] + MapSum(m - {k}) by { MapSumRemove(m, k); }
      assert m' - {k} == m - {k};
    } else {
      assert m' - {k} == m;
    }
  }

  /** The counts over all categories add up to the number of products. */
  lemma {:induction false} DistributionSumsToCount(products: seq<ProductDto>)
    ensures MapSum(Distribution(products)) == |products|
    decreases |products|
  {
    if |products| == 0 {
      assert Distribution(products) == map[];
    } else {
      var front, p := products[..|products| - 1], products[|products| - 1];
      assert front + [p] == products;
      DistributionSumsToCount(front);
      DistributionAppend(front, p);
      var d := Distribution(front);
      MapSumUpdate(d, p.category, (if p.category in d then d[p.category] else 0) + 1);
    }
  }

  /** The figures the dashboard's memo computes (the money total is left out). */
  datatype Stats = Stats(totalItems: int, categoryDistribution: map<string, int>, productCount: nat)

  method ComputeStats(products: seq<ProductDto>) returns (stats: Stats)
    ensures stats.totalItems == SumStock(products)
    ensures stats.productCount == |products|
    ensures stats.categoryDistribution == Distribution(products)
    ensures MapSum(stats.categoryDistribution) == stats.productCount
  {
    var totalItems := FoldStock(0, products);
    FoldStockIsSum(0, products);
    var categoryDistribution := CategoryDistribution(products);
    DistributionSumsToCount(products);
    stats := Stats(totalItems, categoryDistribution, |products|);
  }

  // ---------------------------------------------------------------------------
  // Low-stock alert

  /** How many low-stock entries the alert lists by name. */
  const AlertListLimit := 5

  /** The alert box: the number of low-stock products, the entries it lists,
      and the count on its "+ n more items" line when there is one. */
  datatype LowStockAlert = LowStockAlert(count: nat, listed: seq<ProductDto>, more: Option<nat>)

  function LowStockAlertFor(lowStock: seq<ProductDto>): (r: Option<LowStockAlert>)
    ensures r.Some? <==> |lowStock| > 0
    ensures r.Some? ==>
              && r.value.count == |lowStock|
              && |r.value.listed| == (if |lowStock| < AlertListLimit then |lowStock| else AlertListLimit)
              && r.value.listed == lowStock[..|r.value.listed|]
              && (r.value.more.Some? <==> |lowStock| > AlertListLimit)
              && |r.value.listed| + r.value.more.GetOr(0) == |lowStock|
  {
    if |lowStock| == 0 then None
    else
      var listed := if |lowStock| <= AlertListLimit then lowStock else lowStock[..AlertListLimit];
      var more := if |lowStock| > AlertListLimit then Some(|lowStock| - AlertListLimit) else None;
      Some(LowStockAlert(|lowStock|, listed, more))
  }
}

=== FILE: dashboard_charts.dfy ===
/** The two dashboard charts: the category pie, whose slices cycle through a
    six-colour palette, and the "Lowest Stock Items" bars, built by sorting
    the products in place by stock and taking the first ten. */
module DashboardCharts {
  import opened Models
  import Text

  // ---------------------------------------------------------------------------
  // Category pie

  const Colors: seq<string> := ["#0051BA", "#FFDB00", "#FF6B6B", "#4ECDC4", "#45B7D1", "#96CEB4"]

  /** One pie slice: a category, its product count, and its fill colour. */
  datatype Slice = Slice(name: string, value: int, fill: string)

  /** No key is listed twice. */
  predicate DistinctKeys(keys: seq<string>) {
    forall i, j :: 0 <= i < j < |keys| ==> keys[i] != keys[j]
  }

  /** The keys a listing names. */
  ghost function KeySet(keys: seq<string>): set<string> {
    set k | k in keys
  }

  /** A listing without repeats names as many keys as it is long. */
  lemma {:induction false} DistinctKeyCount(keys: seq<string>)
    requires DistinctKeys(keys)
    ensures |KeySet(keys)| == |keys|
    decreases |keys|
  {
    if |keys| > 0 {
      var front, last := keys[..|keys| - 1], keys[|keys| - 1];
      assert keys == front + [last];
      DistinctKeyCount(front);
      forall i | 0 <= i < |front| ensures front[i] != last {
        assert front[i] == keys[i];
      }
      assert KeySet(keys) == KeySet(front) + {last};
    }
  }

  /** `Object.entries(categoryDistribution).map(...)`: one slice per entry of
      the distribution, with its count, in the order `keyOrder` in which the
      entries come out; the slice at index i takes colour i modulo the
      palette's size. */
  function CategorySlices(distribution: map<string, int>, keyOrder: seq<string>): (r: seq<Slice>)
    requires DistinctKeys(keyOrder)
    requires forall k :: k in distribution <==> k in keyOrder
    ensures |r| == |distribution|
    ensures |r| == |keyOrder| && forall i :: 0 <= i < |r| ==> r[i].name == keyOrder[i]
    ensures forall i :: 0 <= i < |r| ==> r[i].name in distribution && r[i].value == distribution[r[i].name]
    ensures forall k :: k in distribution ==> exists i :: 0 <= i < |r| && r[i].name == k
    ensures forall i :: 0 <= i < |r| ==> r[i].fill == Colors[i % |Colors|]
  {
    DistinctKeyCount(keyOrder);
    assert distribution.Keys == KeySet(keyOrder);
    var r := seq(|keyOrder|, i requires 0 <= i < |keyOrder| => Slice(keyOrder[i], distribution[keyOrder[i]], Colors[i % |Colors|]));
    assert forall k :: k in distribution ==> exists i :: 0 <= i < |r| && r[i].name == k by {
      forall k | k in distribution ensures exists i :: 0 <= i < |r| && r[i].name == k {
        var i :| 0 <= i < |keyOrder| && keyOrder[i] == k;
        assert r[i].name == k;
      }
    }
    r
  }

  /** Consecutive palette positions hold different colours. */
  lemma NeighbourColoursDiffer(i: nat)
    ensures Colors[i % |Colors|] != Colors[(i + 1) % |Colors|]
  {
    var a, b := i % 6, (i + 1) % 6;
    assert b == (a + 1) % 6;
    if a == 0 { assert Colors[a][3] != Colors[b][3]; }
    else if a == 1 { assert Colors[a][3] != Colors[b][3]; }
    else if a == 2 { assert Colors[a][2] != Colors[b][2]; }
    else if a == 3 { assert Colors[a][2] != Colors[b][2]; }
    else if a == 4 { assert Colors[a][2] != Colors[b][2]; }
    else { assert Colors[a][2] != Colors[b][2]; }
  }

  /** Neighbouring slices never share a colour, and the colours repeat every
      six slices. */
  lemma SliceColoursCycle(distribution: map<string, int>, keyOrder: seq<string>)
    requires DistinctKeys(keyOrder)
    requires forall k :: k in distribution <==> k in keyOrder
    ensures var r := CategorySlices(distribution, keyOrder);
            forall i :: 0 <= i < |r| - 1 ==> r[i].fill != r[i + 1].fill
    ensures var r := CategorySlices(distribution, keyOrder);
            forall i :: 0 <= i < |r| - 6 ==> r[i].fill == r[i + 6].fill
  {
    var r := CategorySlices(distribution, keyOrder);
    forall i | 0 <= i < |r| - 1 ensures r[i].fill != r[i + 1].fill {
      NeighbourColoursDiffer(i);
    }
    forall i | 0 <= i < |r| - 6 ensures r[i].fill == r[i + 6].fill {
      assert (i + 6) % 6 == i % 6;
    }
  }

  // ---------------------------------------------------------------------------
  // Lowest-stock bars

  /** How many bars the chart shows. */
  const BarLimit := 10

  /** How many characters of a name a bar label keeps. */
  const LabelLength := 15

  /** Non-decreasing stock order. */
  ghost predicate SortedByStock(s: seq<ProductDto>) {
    forall i, j :: 0 <= i < j < |s| ==> s[i].stockQuantity <= s[j].stockQuantity
  }

  /** The bar label: a name longer than fifteen characters keeps its first
      fifteen followed by "...". */
  function TruncateName(name: string): (r: string)
    ensures |name| <= LabelLength ==> r == name
    ensures |name| > LabelLength ==> |r| == LabelLength + 3 && Text.StartsWith(r, name[..LabelLength]) && Text.EndsWith(r, "...")
    ensures |r| <= LabelLength + 3
  {
    if |name| > LabelLength then name[..LabelLength] + "..." else name
  }

  /** A label is left alone by a second truncation. */
  lemma TruncateNameIdempotent(name: string)
    ensures TruncateName(TruncateName(name)) == TruncateName(name)
  {
  }

  /** One bar: the label, the stock and the minimum. */
  datatype StockEntry = StockEntry(name: string, stock: int, minimum: int)

  function ToEntry(p: ProductDto): (e: StockEntry)
    ensures e.stock == p.stockQuantity && e.minimum == p.minimumStock
    ensures e.name == TruncateName(p.name)
  {
    StockEntry(TruncateName(p.name), p.stockQuantity, p.minimumStock)
  }

  /** `slice(0, 10).map(...)` over the sorted products. */
  function StockData(sorted: seq<ProductDto>): (r: seq<StockEntry>)
    ensures |r| == if |sorted| < BarLimit then |sorted| else BarLimit
    ensures forall i :: 0 <= i < |r| ==> r[i] == ToEntry(sorted[i])
  {
    var n := if |sorted| < BarLimit then |sorted| else BarLimit;
    seq(n, i requires 0 <= i < n => ToEntry(sorted[i]))
  }

  /** Over sorted products, the bars are in non-decreasing stock order and no
      product left off the chart has less stock than one on it. */
  lemma StockDataLowest(sorted: seq<ProductDto>)
    requires SortedByStock(sorted)
    ensures forall i, j :: 0 <= i < j < |StockData(sorted)| ==>
              StockData(sorted)[i].stock <= StockData(sorted)[j].stock
    ensures forall i, k :: 0 <= i < |StockData(sorted)| <= k < |sorted| ==>
              StockData(sorted)[i].stock <= sorted[k].stockQuantity
  {
  }

  /** Swaps two elements in place. */
  method Swap(a: array<ProductDto>, i: int, j: int)
    requires 0 <= i < a.Length && 0 <= j < a.Length
    modifies a
    ensures a[i] == old(a[j]) && a[j] == old(a[i])
    ensures forall k :: 0 <= k < a.Length && k != i && k != j ==> a[k] == old(a[k])
    ensures multiset(a[..]) == multiset(old(a[..]))
  {
    a[i], a[j] := a[j], a[i];
  }

  /** Reorders the caller's array in place by ascending stock, comparing
      stock quantities only. Equal stocks are never swapped. */
  method SortByStock(a: array<ProductDto>)
    modifies a
    ensures SortedByStock(a[..])
    ensures multiset(a[..]) == multiset(old(a[..]))
  {
    for i := 0 to a.Length
      invariant SortedByStock(a[..i])
      invariant multiset(a[..]) == multiset(old(a[..]))
    {
      var j := i;
      while j > 0 && a[j - 1].stockQuantity > a[j].stockQuantity
        invariant 0 <= j <= i
        invariant multiset(a[..]) == multiset(old(a[..]))
        invariant forall k, l :: 0 <= k < l <= i && k != j && l != j ==> a[k].stockQuantity <= a[l].stockQuantity
        invariant forall l :: j < l <= i ==> a[j].stockQuantity < a[l].stockQuantity
      {
        Swap(a, j - 1, j);
        j := j - 1;
      }
    }
  }

  /** The bar chart's data: sorts the products in place, then labels the
      first ten. */
  method BuildStockChart(products: array<ProductDto>) returns (data: seq<StockEntry>)
    modifies products
    ensures multiset(products[..]) == multiset(old(products[..]))
    ensures SortedByStock(products[..])
    ensures data == StockData(products[..])
    ensures |data| == if products.Length < BarLimit then products.Length else BarLimit
    ensures forall i, j :: 0 <= i < j < |data| ==> data[i].stock <= data[j].stock
    ensures forall i, k :: 0 <= i < |data| <= k < products.Length ==> data[i].stock <= products[k].stockQuantity
  {
    SortByStock(products);
    data := StockData(products[..]);
    StockDataLowest(products[..]);
  }
}

=== FILE: models.dfy ===
/** The catalogue's records: the stored product entity, its wire shape
    (`ProductDto`, which the client also reads as its `Product`), and the
    request bodies for creating and updating a product. Prices are exact
    integer cents. */
module Models {
  import opened Wrappers

  /** An amount of money in cents. */
  type Cents = int

  /** A catalogue row as the repository stores it. */
  datatype Product = Product(
    id: int,
    sku: string,
    name: string,
    description: string,
    category: string,
    price: Cents,
    stockQuantity: int,
    minimumStock: int,
    supplierId: int,
    location: string,
    isActive: bool)

  /** A product as the API returns it, with the derived low-stock flag and
      the supplier's name. */
  datatype ProductDto = ProductDto(
    id: int,
    sku: string,
    name: string,
    description: string,
    category: string,
    price: Cents,
    stockQuantity: int,
    minimumStock: int,
    supplierId: int,
    supplierName: Option<string>,
    location: string,
    isLowStock: bool,
    isActive: bool)

  /** The body of a create request. */
  datatype CreateProductDto = CreateProductDto(
    sku: string,
    name: string,
    description: string,
    category: string,
    price: Cents,
    stockQuantity: int,
    minimumStock: int,
    supplierId: int,
    location: string)

  /** The body of an update request: every field is optional, and there is
      no SKU and no stock quantity to send. */
  datatype UpdateProductDto = UpdateProductDto(
    name: Option<string>,
    description: Option<string>,
    category: Option<string>,
    price: Option<Cents>,
    minimumStock: Option<int>,
    supplierId: Option<int>,
    location: Option<string>,
    isActive: Option<bool>)

  /** The low-stock rule: at or below the minimum counts as low. */
  function IsLowStock(stockQuantity: int, minimumStock: int): (low: bool)
    ensures stockQuantity < minimumStock ==> low
    ensures stockQuantity == minimumStock ==> low
    ensures stockQuantity > minimumStock ==> !low
  {
    stockQuantity <= minimumStock
  }
}

=== FILE: product_list.dfy ===
/** The product table of the client: the search box's filter, the low-stock
    highlight of a row, and the +1 / -1 stock buttons with the guard on -1. */
module ProductList {
  import opened Models
  import Text
  import Seqs

  /** A product passes the search when the lower-cased term occurs in its
      lower-cased name, SKU or category. */
  function Matches(p: ProductDto, searchTerm: string): (b: bool)
    ensures b <==>
              || (exists i :: Text.OccursAt(Text.ToLower(p.name), Text.ToLower(searchTerm), i))
              || (exists i :: Text.OccursAt(Text.ToLower(p.sku), Text.ToLower(searchTerm), i))
              || (exists i :: Text.OccursAt(Text.ToLower(p.category), Text.ToLower(searchTerm), i))
    ensures searchTerm == "" ==> b
  {
    Text.IncludesEmpty(Text.ToLower(p.name));
    var term := Text.ToLower(searchTerm);
    || Text.Includes(Text.ToLower(p.name), term)
    || Text.Includes(Text.ToLower(p.sku), term)
    || Text.Includes(Text.ToLower(p.category), term)
  }

  /** The rows the table shows for `searchTerm`: the passing products, in
      the order they were loaded. */
  function FilterProducts(products: seq<ProductDto>, searchTerm: string): (r: seq<ProductDto>)
    ensures forall i :: 0 <= i < |r| ==> r[i] in products && Matches(r[i], searchTerm)
    ensures forall i :: 0 <= i < |products| && Matches(products[i], searchTerm) ==> products[i] in r
    ensures Seqs.IsSubsequence(r, products)
    ensures forall p :: multiset(r)[p] == if Matches(p, searchTerm) then multiset(products)[p] else 0
  {
    Seqs.Filter(products, p => Matches(p, searchTerm))
  }

  /** An empty search box shows every product. */
  lemma EmptySearchKeepsAll(products: seq<ProductDto>)
    ensures FilterProducts(products, "") == products
  {
    Seqs.FilterAll(products, p => Matches(p, ""));
  }

  /** The case of the search term does not matter. */
  lemma SearchIgnoresTermCase(products: seq<ProductDto>, searchTerm: string)
    ensures FilterProducts(products, searchTerm) == FilterProducts(products, Text.ToLower(searchTerm))
  {
    Text.ToLowerIdempotent(searchTerm);
    Seqs.FilterAgreeing(products, p => Matches(p, searchTerm), p => Matches(p, Text.ToLower(searchTerm)));
  }

  const LowStockRowClass := "bg-red-50"
  const LowStockTextClass := "text-red-600 font-semibold"
  const NormalTextClass := "text-gray-900"

  /** The background of a table row: red exactly for low-stock products. */
  function RowClass(p: ProductDto): (c: string)
    ensures c == LowStockRowClass <==> p.isLowStock
    ensures !p.isLowStock ==> c == ""
  {
    if p.isLowStock then LowStockRowClass else ""
  }

  /** The style of the stock figure: red and bold exactly for low-stock products. */
  function StockTextClass(p: ProductDto): (c: string)
    ensures c == LowStockTextClass <==> p.isLowStock
    ensures c == NormalTextClass <==> !p.isLowStock
  {
    if p.isLowStock then LowStockTextClass else NormalTextClass
  }

  /** A stock button: the change it requests and whether it is disabled. */
  datatype StockButton = StockButton(delta: int, disabled: bool)

  /** The "+" button: always enabled, asks for one more unit. */
  function IncreaseButton(p: ProductDto): (b: StockButton)
    ensures b.delta == 1 && !b.disabled
  {
    StockButton(1, false)
  }

  /** The "-" button: asks for one unit less, disabled when nothing is in stock. */
  function DecreaseButton(p: ProductDto): (b: StockButton)
    ensures b.delta == -1
    ensures b.disabled <==> p.stockQuantity <= 0
  {
    StockButton(-1, p.stockQuantity <= 0)
  }

  /** Through the buttons alone, the client never asks for a change that takes
      the shown stock below zero. */
  lemma EnabledButtonsKeepStockNonNegative(p: ProductDto)
    requires p.stockQuantity >= 0
    ensures !IncreaseButton(p).disabled ==> p.stockQuantity + IncreaseButton(p).delta >= 0
    ensures !DecreaseButton(p).disabled ==> p.stockQuantity + DecreaseButton(p).delta >= 0
  {
  }
}

=== FILE: products_controller.dfy ===
/** The product endpoints of the API: the DTO mapping with its derived
    low-stock flag, the duplicate-SKU guard on create, the partial update,
    the not-found short-circuits, and the CSV export. The repository behind
    the controller is modelled as a store of products keyed by id. */
module ProductsController {
  import opened Wrappers
  import opened Models
  import Text
  import Seqs

  /** The HTTP outcomes the endpoints produce. */
  datatype ActionResult<+T> =
    | Ok(value: T)
    | CreatedAt(value: T)
    | NoContent
    | NotFound
    | BadRequest(message: string)

  const DuplicateSkuMessage := "A product with this SKU already exists."

  /** New rows start active: the entity's default, which the create body
      cannot set. */
  const DefaultIsActive := true

  const CsvHeader := "SKU,Name,Category,Price,Stock,Minimum Stock,Supplier,Location,Status"

  // ---------------------------------------------------------------------------
  // DTO mapping

  /** The supplier's name, when the product's supplier is known. */
  function SupplierName(suppliers: map<int, string>, supplierId: int): (r: Option<string>)
    ensures r.Some? <==> supplierId in suppliers
    ensures r.Some? ==> r.value == suppliers[supplierId]
  {
    if supplierId in suppliers then Some(suppliers[supplierId]) else None
  }

  /** The product as the list, detail and create endpoints return it. */
  function ToDto(p: Product, supplierName: Option<string>): (d: ProductDto)
    ensures d.isLowStock <==> p.stockQuantity <= p.minimumStock
    ensures d.id == p.id && d.sku == p.sku && d.name == p.name
    ensures d.description == p.description && d.category == p.category
    ensures d.price == p.price && d.stockQuantity == p.stockQuantity
    ensures d.minimumStock == p.minimumStock && d.supplierId == p.supplierId
    ensures d.supplierName == supplierName && d.location == p.location && d.isActive == p.isActive
  {
    ProductDto(p.id, p.sku, p.name, p.description, p.category, p.price, p.stockQuantity,
               p.minimumStock, p.supplierId, supplierName, p.location,
               IsLowStock(p.stockQuantity, p.minimumStock), p.isActive)
  }

  /** The low-stock endpoint's mapping: the flag is set outright, every
      other field is copied as `ToDto` copies it. */
  function ToLowStockDto(p: Product, supplierName: Option<string>): (d: ProductDto)
    ensures d.isLowStock
    ensures d == ToDto(p, supplierName).(isLowStock := true)
  {
    ProductDto(p.id, p.sku, p.name, p.description, p.category, p.price, p.stockQuantity,
               p.minimumStock, p.supplierId, supplierName, p.location, true, p.isActive)
  }

  /** The hard-coded flag of the low-stock endpoint agrees with the derived
      flag exactly for the products that are low on stock. */
  lemma LowStockDtoAgreesWithDerivedFlag(p: Product, supplierName: Option<string>)
    ensures ToLowStockDto(p, supplierName) == ToDto(p, supplierName)
            <==> p.stockQuantity <= p.minimumStock
  {
  }

  /** What the low-stock endpoint returns for the repository's answer `lowStock`. */
  function LowStockDtos(lowStock: seq<Product>, suppliers: map<int, string>): (r: seq<ProductDto>)
    ensures |r| == |lowStock|
    ensures forall i :: 0 <= i < |r| ==> r[i].isLowStock && r[i].id == lowStock[i].id
    ensures forall i :: 0 <= i < |r| ==>
              r[i] == ToDto(lowStock[i], SupplierName(suppliers, lowStock[i].supplierId)).(isLowStock := true)
  {
    seq(|lowStock|, i requires 0 <= i < |lowStock| =>
      ToLowStockDto(lowStock[i], SupplierName(suppliers, lowStock[i].supplierId)))
  }

  /** The status of the stock-change and delete endpoints, given whether the
      repository found the product. */
  function StatusFor(success: bool): (r: ActionResult<()>)
    ensures r.NotFound? <==> !success
    ensures r.NoContent? <==> success
  {
    if success then NoContent else NotFound
  }

  // ---------------------------------------------------------------------------
  // CSV export

  /** The status column's word. */
  function StatusText(isActive: bool): (r: string)
    ensures r == "Active" <==> isActive
    ensures r == "Inactive" <==> !isActive
  {
    if isActive then "Active" else "Inactive"
  }

  /** The nine columns of one product's export line, before they are joined.
      How a price is printed depends on the server's culture, so it is a
      parameter. */
  function CsvFields(p: Product, supplierName: Option<string>, formatPrice: Cents -> string): (r: seq<string>)
    ensures |r| == 9
    ensures r[0] == p.sku && r[1] == p.name && r[2] == p.category
    ensures r[3] == formatPrice(p.price)
    ensures Text.ParseInt(r[4]) == p.stockQuantity && Text.ParseInt(r[5]) == p.minimumStock
    ensures r[6] == supplierName.GetOr("") && r[7] == p.location
    ensures r[8] == StatusText(p.isActive)
  {
    var stock, minimum := CountText(p.stockQuantity), CountText(p.minimumStock);
    var supplier, status := supplierName.GetOr(""), StatusText(p.isActive);
    var r := [p.sku, p.name, p.category, formatPrice(p.price), stock, minimum, supplier, p.location, status];
    assert r[0] == p.sku && r[1] == p.name && r[2] == p.category && r[3] == formatPrice(p.price);
    assert r[4] == stock && r[5] == minimum && r[6] == supplier && r[7] == p.location && r[8] == status;
    r
  }

  /** A stock count as the export prints it: decimal digits after an optional
      minus sign, reading back as the same number. */
  function CountText(n: int): (s: string)
    ensures Text.ParseInt(s) == n
    ensures forall i :: 0 <= i < |s| ==> s[i] == '-' || '0' <= s[i] <= '9'
  {
    Text.IntToStringRoundTrip(n);
    Text.IntToString(n)
  }

  /** A printed count never contains the separator. */
  lemma CountTextHasNoComma(n: int)
    ensures ',' !in CountText(n)
  {
    var s := CountText(n);
    assert forall j :: 0 <= j < |s| ==> s[j] != ',';
  }

  /** One product's export line. Fields are not quoted or escaped. */
  function CsvRow(p: Product, supplierName: Option<string>, formatPrice: Cents -> string): (r: string)
    ensures Text.StartsWith(r, p.sku + ",")
    ensures Text.EndsWith(r, "," + StatusText(p.isActive))
  {
    var fields := CsvFields(p, supplierName, formatPrice);
    Text.JoinEndsWithLast(fields, ',');
    var r := Text.Join(fields, ',');
    assert r == p.sku + [','] + Text.Join(fields[1..], ',');
    assert r[..|p.sku| + 1] == p.sku + ",";
    r
  }

  /** The status column closes every line: a line ends in ",Active" exactly
      when the product is active, whatever its other fields contain. */
  lemma CsvRowStatus(p: Product, supplierName: Option<string>, formatPrice: Cents -> string)
    ensures Text.EndsWith(CsvRow(p, supplierName, formatPrice), ",Active") <==> p.isActive
    ensures Text.EndsWith(CsvRow(p, supplierName, formatPrice), ",Inactive") <==> !p.isActive
  {
    StatusSuffix(CsvRow(p, supplierName, formatPrice), p.isActive);
  }

  /** A line that ends in the status column ends in ",Active" or ",Inactive"
      according to the status alone. */
  lemma StatusSuffix(row: string, isActive: bool)
    requires Text.EndsWith(row, "," + StatusText(isActive))
    ensures Text.EndsWith(row, ",Active") <==> isActive
    ensures Text.EndsWith(row, ",Inactive") <==> !isActive
  {
    if isActive {
      assert row[|row| - 7..] == ",Active";
      if |row| >= 9 {
        assert row[|row| - 7..] == row[|row| - 9..][2..];
      }
    } else {
      assert row[|row| - 9..] == ",Inactive";
      assert row[|row| - 7..] == row[|row| - 9..][2..];
    }
  }

  /** When no free-text field contains a comma, a line reads back as exactly
      its nine fields; a comma in a name or other text shifts the columns. */
  lemma CsvRowColumns(p: Product, supplierName: Option<string>, formatPrice: Cents -> string)
    requires ',' !in p.sku && ',' !in p.name && ',' !in p.category && ',' !in p.location
    requires ',' !in formatPrice(p.price) && ',' !in supplierName.GetOr("")
    ensures Text.Split(CsvRow(p, supplierName, formatPrice), ',') == CsvFields(p, supplierName, formatPrice)
    ensures |Text.Split(CsvRow(p, supplierName, formatPrice), ',')| == 9
  {
    var fields := CsvFields(p, supplierName, formatPrice);
    CountTextHasNoComma(p.stockQuantity);
    CountTextHasNoComma(p.minimumStock);
    assert fields[4] == CountText(p.stockQuantity) && fields[5] == CountText(p.minimumStock);
    assert forall i :: 0 <= i < 9 ==> ',' !in fields[i];
    Text.SplitJoin(fields, ',');
    assert CsvRow(p, supplierName, formatPrice) == Text.Join(fields, ',');
  }

  // ---------------------------------------------------------------------------
  // The store

  /** No two products share a SKU (the unique index on the SKU column). */
  ghost predicate UniqueSkus(products: map<int, Product>) {
    forall a, b :: a in products && b in products && products[a].sku == products[b].sku ==> a == b
  }

  /** Some product already has this SKU. */
  predicate SkuTaken(products: map<int, Product>, sku: string) {
    exists id :: id in products && products[id].sku == sku
  }

  /** The product a create request makes under identity `id`. */
  predicate MadeFrom(p: Product, id: int, dto: CreateProductDto) {
    && p.id == id && p.sku == dto.sku && p.name == dto.name
    && p.description == dto.description && p.category == dto.category
    && p.price == dto.price && p.stockQuantity == dto.stockQuantity
    && p.minimumStock == dto.minimumStock && p.supplierId == dto.supplierId
    && p.location == dto.location && p.isActive == DefaultIsActive
  }

  /** The update rule for one field: the supplied value, or the old one. */
  function Updated<T>(supplied: Option<T>, current: T): (r: T)
    ensures supplied.Some? ==> r == supplied.value
    ensures supplied.None? ==> r == current
  {
    supplied.GetOr(current)
  }

  /** The products in the repository's listing order. */
  function ListingOf(products: map<int, Product>, order: seq<int>): (r: seq<Product>)
    requires forall i :: 0 <= i < |order| ==> order[i] in products
    ensures |r| == |order|
    ensures forall i :: 0 <= i < |r| ==> r[i] == products[order[i]]
  {
    seq(|order|, i requires 0 <= i < |order| => products[order[i]])
  }

  /** No identity occurs twice in `order`. */
  predicate NoRepeats(order: seq<int>) {
    forall a, b :: 0 <= a < b < |order| ==> order[a] != order[b]
  }

  /** Cutting position `i` out of an order without repeats removes exactly
      the identity at `i` and keeps the rest without repeats. */
  lemma RemoveFromOrder(order: seq<int>, i: int)
    requires 0 <= i < |order|
    requires NoRepeats(order)
    ensures forall k :: k in order[..i] + order[i + 1..] <==> k in order && k != order[i]
    ensures NoRepeats(order[..i] + order[i + 1..])
  {
    var rest := order[..i] + order[i + 1..];
    assert forall a :: 0 <= a < |rest| ==> rest[a] == order[if a < i then a else a + 1];
    forall k | k in order && k != order[i] ensures k in rest {
      var j :| 0 <= j < |order| && order[j] == k;
      assert rest[if j < i then j else j - 1] == k;
    }
  }

  /** The repository behind the controller: products keyed by identity, the
      order in which listings return them, the next identity to hand out,
      and the suppliers' names that DTOs and export lines show. */
  class ProductStore {
    var products: map<int, Product>
    var order: seq<int>
    var nextId: int
    const suppliers: map<int, string>

    ghost predicate Valid()
      reads this
    {
      && 1 <= nextId
      && (forall id :: id in products ==> products[id].id == id && 0 < id < nextId)
      && UniqueSkus(products)
      && (forall i :: 0 <= i < |order| ==> order[i] in products)
      && (forall id :: id in products ==> id in order)
      && NoRepeats(order)
    }

    constructor (suppliers: map<int, string>)
      ensures Valid()
      ensures this.suppliers == suppliers
      ensures products == map[] && order == [] && nextId == 1
    {
      this.suppliers := suppliers;
      products := map[];
      order := [];
      nextId := 1;
    }

    function Listing(): (r: seq<Product>)
      reads this
      requires Valid()
      ensures |r| == |order|
      ensures forall i :: 0 <= i < |r| ==> r[i] == products[order[i]]
    {
      ListingOf(products, order)
    }

    /** GET /api/products: every product, in listing order, mapped to its DTO. */
    method GetProducts() returns (dtos: seq<ProductDto>)
      requires Valid()
      ensures |dtos| == |order|
      ensures forall i :: 0 <= i < |dtos| ==>
                dtos[i] == ToDto(products[order[i]], SupplierName(suppliers, products[order[i]].supplierId))
      ensures forall i :: 0 <= i < |dtos| ==>
                dtos[i].id == order[i] && (dtos[i].isLowStock <==> IsLowStock(dtos[i].stockQuantity, dtos[i].minimumStock))
    {
      var all := Listing();
      dtos := seq(|all|, i requires 0 <= i < |all| => ToDto(all[i], SupplierName(suppliers, all[i].supplierId)));
    }

    /** GET /api/products/{id}: the product's DTO, or NotFound. */
    method GetProduct(id: int) returns (r: ActionResult<ProductDto>)
      requires Valid()
      ensures r.NotFound? <==> id !in products
      ensures id in products ==> r == Ok(ToDto(products[id], SupplierName(suppliers, products[id].supplierId)))
      ensures r.Ok? ==> r.value.id == id
    {
      if id !in products {
        return NotFound;
      }
      var product := products[id];
      r := Ok(ToDto(product, SupplierName(suppliers, product.supplierId)));
    }

    /** POST /api/products: refuse a SKU that is already taken, otherwise
        store a new product built from the request body. */
    method CreateProduct(dto: CreateProductDto) returns (r: ActionResult<ProductDto>)
      requires Valid()
      modifies this
      ensures Valid()
      ensures SkuTaken(old(products), dto.sku) ==>
                && r == BadRequest(DuplicateSkuMessage)
                && products == old(products) && order == old(order) && nextId == old(nextId)
      ensures !SkuTaken(old(products), dto.sku) ==>
                var id := old(nextId);
                && id !in old(products) && id in products
                && MadeFrom(products[id], id, dto)
                && products == old(products)[id := products[id]]
                && order == old(order) + [id]
                && nextId == id + 1
                && r == CreatedAt(ToDto(products[id], SupplierName(suppliers, dto.supplierId)))
    {
      if SkuTaken(products, dto.sku) {
        return BadRequest(DuplicateSkuMessage);
      }
      var id := nextId;
      var product := Product(id, dto.sku, dto.name, dto.description, dto.category, dto.price,
                             dto.stockQuantity, dto.minimumStock, dto.supplierId, dto.location,
                             DefaultIsActive);
      products := products[id := product];
      order := order + [id];
      nextId := nextId + 1;
      r := CreatedAt(ToDto(product, SupplierName(suppliers, product.supplierId)));
    }

    /** PUT /api/products/{id}: overwrite only the supplied fields; identity,
        SKU and stock quantity are never touched. */
    method UpdateProduct(id: int, dto: UpdateProductDto) returns (r: ActionResult<()>)
      requires Valid()
      modifies this
      ensures Valid()
      ensures order == old(order) && nextId == old(nextId)
      ensures id !in old(products) ==> r == NotFound && products == old(products)
      ensures id in old(products) ==>
                && r == NoContent
                && products.Keys == old(products).Keys
                && (forall k :: k in products && k != id ==> products[k] == old(products)[k])
                && var was, now := old(products)[id], products[id];
                && now.id == was.id && now.sku == was.sku && now.stockQuantity == was.stockQuantity
                && now.name == Updated(dto.name, was.name)
                && now.description == Updated(dto.description, was.description)
                && now.category == Updated(dto.category, was.category)
                && now.price == Updated(dto.price, was.price)
                && now.minimumStock == Updated(dto.minimumStock, was.minimumStock)
                && now.supplierId == Updated(dto.supplierId, was.supplierId)
                && now.location == Updated(dto.location, was.location)
                && now.isActive == Updated(dto.isActive, was.isActive)
    {
      if id !in products {
        return NotFound;
      }
      var product := products[id];
      product := product.(name := Updated(dto.name, product.name));
      product := product.(description := Updated(dto.description, product.description));
      product := product.(category := Updated(dto.category, product.category));
      product := product.(price := Updated(dto.price, product.price));
      product := product.(minimumStock := Updated(dto.minimumStock, product.minimumStock));
      product := product.(supplierId := Updated(dto.supplierId, product.supplierId));
      product := product.(location := Updated(dto.location, product.location));
      product := product.(isActive := Updated(dto.isActive, product.isActive));
      products := products[id := product];
      r := NoContent;
    }

    /** DELETE /api/products/{id}: remove the product, or NotFound. */
    method DeleteProduct(id: int) returns (r: ActionResult<()>)
      requires Valid()
      modifies this
      ensures Valid()
      ensures nextId == old(nextId)
      ensures r == StatusFor(id in old(products))
      ensures products == old(products) - {id}
      ensures id !in old(products) ==> order == old(order)
      ensures id in old(products) ==>
                exists i :: 0 <= i < |old(order)| && old(order)[i] == id && order == old(order)[..i] + old(order)[i + 1..]
      ensures forall k :: k in order <==> k in old(order) && k != id
    {
      var success := id in products;
      if success {
        var i :| 0 <= i < |order| && order[i] == id;
        RemoveFromOrder(order, i);
        products := products - {id};
        order := order[..i] + order[i + 1..];
      }
      r := StatusFor(success);
    }

    /** GET /api/products/export: a header line, then one line per product in
        listing order. Each `AppendLine` adds one element to `lines`. */
    method ExportProducts(formatPrice: Cents -> string) returns (lines: seq<string>)
      requires Valid()
      ensures |lines| == |order| + 1
      ensures lines[0] == CsvHeader
      ensures forall i :: 0 <= i < |order| ==>
                lines[i + 1] == CsvRow(products[order[i]], SupplierName(suppliers, products[order[i]].supplierId), formatPrice)
    {
      var all := Listing();
      var names := suppliers;
      var line := (p: Product) => CsvRow(p, SupplierName(names, p.supplierId), formatPrice);
      lines := [CsvHeader];
      for i := 0 to |all|
        invariant lines == [CsvHeader] + Seqs.Map(all[..i], line)
      {
        Seqs.MapSnoc([CsvHeader], all[..i], all[i], line);
        assert all[..i] + [all[i]] == all[..i + 1];
        lines := lines + [line(all[i])];
      }
      assert all[..|all|] == all;
    }
  }
}

=== FILE: reorder_suggestions.dfy ===
/** The reorder page of the client: the set of selected suggestions and how
    a checkbox toggles it, the select-all box, the priority badge colours,
    the purchase-order list built from the selected suggestions, and the
    deficit and heading texts. The suggestions themselves (deficit,
    quantity, cost, priority) arrive from the server as they are. */
module ReorderSuggestions {
  import opened Wrappers
  import opened Models
  import Text
  import Seqs

  datatype Supplier = Supplier(id: int, name: string, email: string)

  /** One suggestion as the reorder endpoint returns it. */
  datatype ReorderSuggestion = ReorderSuggestion(
    id: int,
    sku: string,
    name: string,
    category: string,
    currentStock: int,
    minimumStock: int,
    deficit: int,
    suggestedOrderQuantity: int,
    estimatedCost: Cents,
    priority: string,
    supplier: Supplier)

  // ---------------------------------------------------------------------------
  // Selection

  /** The selection after its checkbox for `id` is clicked. */
  function Toggled(selected: set<int>, id: int): (r: set<int>)
    ensures id in r <==> id !in selected
    ensures forall x :: x != id ==> (x in r <==> x in selected)
  {
    if id in selected then selected - {id} else selected + {id}
  }

  /** Clicking the same checkbox twice restores the selection. */
  lemma ToggleTwice(selected: set<int>, id: int)
    ensures Toggled(Toggled(selected, id), id) == selected
  {
  }

  /** A mutable JavaScript `Set` of suggestion ids. */
  class IdSet {
    var elems: set<int>

    constructor Empty()
      ensures elems == {}
    {
      elems := {};
    }

    /** `new Set(other)`: a fresh set with the same members. */
    constructor Copy(other: IdSet)
      ensures elems == other.elems
    {
      elems := other.elems;
    }

    function Has(id: int): (b: bool)
      reads this
      ensures b <==> id in elems
    {
      id in elems
    }

    method Add(id: int)
      modifies this
      ensures elems == old(elems) + {id}
    {
      elems := elems + {id};
    }

    method Delete(id: int)
      modifies this
      ensures elems == old(elems) - {id}
    {
      elems := elems - {id};
    }
  }

  /** `toggleSelection`: copy the current set, then add or delete `id` in the
      copy. The set held as state is left as it was. */
  method ToggleSelection(selectedItems: IdSet, id: int) returns (newSelected: IdSet)
    ensures fresh(newSelected)
    ensures newSelected.elems == Toggled(selectedItems.elems, id)
    ensures unchanged(selectedItems)
  {
    newSelected := new IdSet.Copy(selectedItems);
    if newSelected.Has(id) {
      newSelected.Delete(id);
    } else {
      newSelected.Add(id);
    }
  }

  /** The ids of the suggestions. */
  function Ids(suggestions: seq<ReorderSuggestion>): (r: set<int>)
    ensures forall i :: 0 <= i < |suggestions| ==> suggestions[i].id in r
    ensures forall x :: x in r ==> exists i :: 0 <= i < |suggestions| && suggestions[i].id == x
  {
    set i | 0 <= i < |suggestions| :: suggestions[i].id
  }

  /** The selection after the header checkbox changes to `checked`. */
  function SelectAll(checked: bool, suggestions: seq<ReorderSuggestion>): (r: set<int>)
    ensures checked ==> forall i :: 0 <= i < |suggestions| ==> suggestions[i].id in r
    ensures checked ==> forall x :: x in r ==> exists i :: 0 <= i < |suggestions| && suggestions[i].id == x
    ensures !checked ==> r == {}
  {
    if checked then Ids(suggestions) else {}
  }

  /** The header checkbox shows as checked when the selection has as many
      members as there are suggestions. The page renders the table, and
      with it this box, only when there is at least one suggestion; over
      such a list, an empty selection shows the box unchecked. */
  function HeaderChecked(selected: set<int>, suggestions: seq<ReorderSuggestion>): (b: bool)
    ensures suggestions != [] && selected == {} ==> !b
    ensures SelectAll(false, suggestions) == selected ==> (b <==> suggestions == [])
  {
    |selected| == |suggestions|
  }

  /** No two suggestions share an id. */
  predicate DistinctIds(suggestions: seq<ReorderSuggestion>) {
    forall i, j :: 0 <= i < j < |suggestions| ==> suggestions[i].id != suggestions[j].id
  }

  /** Appending a suggestion adds its id to the ids. */
  lemma IdsSnoc(front: seq<ReorderSuggestion>, last: ReorderSuggestion)
    ensures Ids(front + [last]) == Ids(front) + {last.id}
  {
    var all := front + [last];
    forall x | x in Ids(all) ensures x in Ids(front) + {last.id} {
      var i :| 0 <= i < |all| && all[i].id == x;
      if i < |front| { assert front[i].id == x; }
    }
    forall x | x in Ids(front) ensures x in Ids(all) {
      var i :| 0 <= i < |front| && front[i].id == x;
      assert all[i].id == x;
    }
    assert all[|front|].id == last.id;
  }

  /** With distinct ids, checking select-all leaves the header box checked. */
  lemma {:induction false} SelectAllChecksHeader(suggestions: seq<ReorderSuggestion>)
    requires DistinctIds(suggestions)
    ensures HeaderChecked(SelectAll(true, suggestions), suggestions)
    decreases |suggestions|
  {
    if |suggestions| > 0 {
      var front := suggestions[..|suggestions| - 1];
      var last := suggestions[|suggestions| - 1];
      assert front + [last] == suggestions;
      assert DistinctIds(front);
      SelectAllChecksHeader(front);
      assert last.id !in Ids(front) by {
        forall i | 0 <= i < |front| ensures front[i].id != last.id {
          assert front[i] == suggestions[i];
        }
      }
      IdsSnoc(front, last);
    }
  }

  /** For a selection made of the page's ids, the header box shows checked
      exactly when every suggestion is selected: any partial selection shows
      it unchecked. */
  lemma HeaderCheckedExactlyWhenAll(selected: set<int>, suggestions: seq<ReorderSuggestion>)
    requires DistinctIds(suggestions) && selected <= Ids(suggestions)
    ensures HeaderChecked(selected, suggestions) <==> selected == Ids(suggestions)
  {
    SelectAllChecksHeader(suggestions);
    var all := Ids(suggestions);
    assert |all - selected| == |all| - |selected|;
    if |selected| == |suggestions| {
      assert all - selected == {};
    }
  }

  /** The selected suggestions, in the order the page lists them. */
  function SelectedSuggestions(suggestions: seq<ReorderSuggestion>, selected: set<int>): (r: seq<ReorderSuggestion>)
    ensures forall i :: 0 <= i < |r| ==> r[i] in suggestions && r[i].id in selected
    ensures forall i :: 0 <= i < |suggestions| && suggestions[i].id in selected ==> suggestions[i] in r
    ensures Seqs.IsSubsequence(r, suggestions)
    ensures forall s :: multiset(r)[s] == if s.id in selected then multiset(suggestions)[s] else 0
  {
    Seqs.Filter(suggestions, (s: ReorderSuggestion) => s.id in selected)
  }

  // ---------------------------------------------------------------------------
  // Purchase order

  const SelectItemsAlert := "Please select items to order"

  /** One numbered entry of the purchase order (the money columns are left out). */
  datatype OrderLine = OrderLine(number: nat, name: string, sku: string, supplierName: string, quantity: int)

  /** `generatePurchaseOrder`: with nothing selected it stops at the alert and
      produces no document; otherwise it lists the selected suggestions,
      numbered from 1, in page order. */
  function GeneratePurchaseOrder(suggestions: seq<ReorderSuggestion>, selected: set<int>): (r: Result<seq<OrderLine>, string>)
    ensures r.Failure? <==> forall i :: 0 <= i < |suggestions| ==> suggestions[i].id !in selected
    ensures r.Failure? ==> r.error == SelectItemsAlert
    ensures r.Success? ==>
              var chosen := SelectedSuggestions(suggestions, selected);
              && |r.value| == |chosen| > 0
              && forall i :: 0 <= i < |r.value| ==>
                   && r.value[i].number == i + 1
                   && r.value[i].name == chosen[i].name && r.value[i].sku == chosen[i].sku
                   && r.value[i].supplierName == chosen[i].supplier.name
                   && r.value[i].quantity == chosen[i].suggestedOrderQuantity
  {
    var chosen := SelectedSuggestions(suggestions, selected);
    if |chosen| == 0 then
      Failure(SelectItemsAlert)
    else
      Success(seq(|chosen|, i requires 0 <= i < |chosen| =>
        OrderLine(i + 1, chosen[i].name, chosen[i].sku, chosen[i].supplier.name, chosen[i].suggestedOrderQuantity)))
  }

  // ---------------------------------------------------------------------------
  // Badges and texts

  const CriticalClass := "bg-red-100 text-red-800 border-red-300"
  const HighClass := "bg-orange-100 text-orange-800 border-orange-300"
  const OtherClass := "bg-yellow-100 text-yellow-800 border-yellow-300"

  /** `getPriorityColor`: red for "Critical", orange for "High", yellow for
      any other priority. */
  function PriorityColor(priority: string): (c: string)
    ensures c == CriticalClass <==> priority == "Critical"
    ensures c == HighClass <==> priority == "High"
    ensures c == OtherClass <==> priority != "Critical" && priority != "High"
  {
    assert CriticalClass[3] != HighClass[3] && CriticalClass[3] != OtherClass[3] && HighClass[3] != OtherClass[3];
    match priority
    case "Critical" => CriticalClass
    case "High" => HighClass
    case _ => OtherClass
  }

  const AtMinimumLabel := "At minimum"
  const BelowMinimumSuffix := " below minimum"

  /** The line under the stock figures: how far below the minimum, or that
      the stock sits exactly at it. */
  function DeficitLabel(deficit: int): (r: string)
    ensures r == AtMinimumLabel <==> deficit <= 0
    ensures Text.EndsWith(r, BelowMinimumSuffix) <==> deficit > 0
    ensures deficit > 0 ==> Text.StartsWith(r, Text.IntToString(deficit))
    ensures deficit > 0 ==> |r| == |Text.IntToString(deficit)| + |BelowMinimumSuffix|
  {
    if deficit > 0 then
      var r := Text.IntToString(deficit) + BelowMinimumSuffix;
      assert r[..|Text.IntToString(deficit)|] == Text.IntToString(deficit);
      r
    else
      AtMinimumLabel
  }

  /** Different positive deficits get different labels. */
  lemma DeficitLabelInjective(d: int, e: int)
    requires d > 0 && e > 0
    ensures DeficitLabel(d) == DeficitLabel(e) ==> d == e
  {
    if DeficitLabel(d) == DeficitLabel(e) {
      var sd, se := Text.IntToString(d), Text.IntToString(e);
      assert sd == DeficitLabel(d)[..|DeficitLabel(d)| - |BelowMinimumSuffix|];
      assert se == DeficitLabel(e)[..|DeficitLabel(e)| - |BelowMinimumSuffix|];
      Text.IntToStringInjective(d, e);
    }
  }

  /** The heading under the page title: "{n} product(s) need restocking",
      with the plural for every count but one. */
  function RestockingText(n: nat): (r: string)
    ensures r == "1 product need restocking" <==> n == 1
    ensures n != 1 ==> r == Text.IntToString(n) + " products need restocking"
    ensures Text.StartsWith(r, Text.IntToString(n))
  {
    var digits := Text.IntToString(n);
    var r := digits + " product" + (if n != 1 then "s" else "") + " need restocking";
    assert r[..|digits|] == digits;
    if n == 1 then
      assert digits == "1";
      r
    else
      assert |r| > |"1 product need restocking"|;
      r
  }
}

=== FILE: seqs.dfy ===
/** `Array.prototype.filter` and `map` over sequences, and the order-preservation they keep. */
module Seqs {

  /** `a` can be obtained from `b` by deleting elements, the rest keeping their order. */
  predicate IsSubsequence<T(==)>(a: seq<T>, b: seq<T>)
    decreases |b|
  {
    |a| == 0 ||
    (|b| > 0 && ((a[0] == b[0] && IsSubsequence(a[1..], b[1..])) || IsSubsequence(a, b[1..])))
  }

  /** The elements of `s` that `keep` accepts, in their original order. */
  function Filter<T(==,!new)>(s: seq<T>, keep: T -> bool): (r: seq<T>)
    ensures |r| <= |s|
    ensures forall i :: 0 <= i < |r| ==> r[i] in s && keep(r[i])
    ensures forall i :: 0 <= i < |s| && keep(s[i]) ==> s[i] in r
    ensures IsSubsequence(r, s)
    ensures forall x {:trigger multiset(r)[x]} :: multiset(r)[x] == if keep(x) then multiset(s)[x] else 0
    decreases |s|
  {
    if |s| == 0 then []
    else
      var rest := Filter(s[1..], keep);
      assert s == [s[0]] + s[1..];
      if keep(s[0]) then
        assert ([s[0]] + rest)[1..] == rest;
        [s[0]] + rest
      else rest
  }

  /** When `keep` accepts every element, the filter returns the whole sequence. */
  lemma {:induction false} FilterAll<T(!new)>(s: seq<T>, keep: T -> bool)
    requires forall i :: 0 <= i < |s| ==> keep(s[i])
    ensures Filter(s, keep) == s
    decreases |s|
  {
    if |s| > 0 {
      FilterAll(s[1..], keep);
      assert [s[0]] + s[1..] == s;
    }
  }

  /** Two tests that agree on every element select the same elements. */
  lemma {:induction false} FilterAgreeing<T(!new)>(s: seq<T>, f: T -> bool, g: T -> bool)
    requires forall i :: 0 <= i < |s| ==> f(s[i]) == g(s[i])
    ensures Filter(s, f) == Filter(s, g)
    decreases |s|
  {
    if |s| > 0 {
      FilterAgreeing(s[1..], f, g);
    }
  }

  /** `f` applied to every element of `s`, in order. */
  function Map<T, U>(s: seq<T>, f: T -> U): (r: seq<U>)
    ensures |r| == |s|
    ensures forall i :: 0 <= i < |s| ==> r[i] == f(s[i])
  {
    seq(|s|, i requires 0 <= i < |s| => f(s[i]))
  }

  /** Appending the image of one more element after a mapped prefix maps the
      longer sequence. */
  lemma MapSnoc<T, U>(head: seq<U>, s: seq<T>, x: T, f: T -> U)
    ensures (head + Map(s, f)) + [f(x)] == head + Map(s + [x], f)
  {
  }
}

=== FILE: text.dfy ===
/** String helpers the components rely on: ASCII lower-casing, substring search
    (`String.prototype.includes`), integer formatting, and joining and splitting
    on a separator character. */
module Text {

  // ---------------------------------------------------------------------------
  // Lower-casing

  /** Lower-cases one character; only the ASCII letters A-Z change. */
  function LowerChar(c: char): (d: char)
    ensures 'A' <= c <= 'Z' ==> 'a' <= d <= 'z' && d as int - c as int == 32
    ensures !('A' <= c <= 'Z') ==> d == c
  {
    if 'A' <= c <= 'Z' then (c as int + 32) as char else c
  }

  /** `toLowerCase()` restricted to ASCII case folding. */
  function ToLower(s: string): (r: string)
    ensures |r| == |s|
    ensures forall i :: 0 <= i < |s| ==> r[i] == LowerChar(s[i])
    ensures forall i :: 0 <= i < |r| ==> !('A' <= r[i] <= 'Z')
  {
    seq(|s|, i requires 0 <= i < |s| => LowerChar(s[i]))
  }

  /** Lower-casing twice is lower-casing once. */
  lemma ToLowerIdempotent(s: string)
    ensures ToLower(ToLower(s)) == ToLower(s)
  {
  }

  // ---------------------------------------------------------------------------
  // Substring search

  /** `t` occurs in `s` at position `i`. */
  predicate OccursAt(s: string, t: string, i: int) {
    0 <= i && i + |t| <= |s| && s[i..i + |t|] == t
  }

  /** `s.includes(t)`: scan `s` from the left for an occurrence of `t`. */
  function Includes(s: string, t: string): (r: bool)
    ensures r <==> exists i :: OccursAt(s, t, i)
    decreases |s|
  {
    if |t| > |s| then
      assert forall i :: !OccursAt(s, t, i);
      false
    else if s[..|t|] == t then
      assert OccursAt(s, t, 0);
      true
    else
      var rest := Includes(s[1..], t);
      IncludesShift(s, t);
      rest
  }

  /** An occurrence in the tail of `s` is an occurrence in `s` one place
      further on, and every occurrence in `s` other than at 0 comes from one. */
  lemma IncludesShift(s: string, t: string)
    requires |t| <= |s| && s[..|t|] != t
    ensures (exists i :: OccursAt(s, t, i)) <==> (exists i :: OccursAt(s[1..], t, i))
  {
    if i :| OccursAt(s, t, i) {
      assert i != 0;
      assert s[1..][i - 1..i - 1 + |t|] == s[i..i + |t|];
      assert OccursAt(s[1..], t, i - 1);
    }
    if i :| OccursAt(s[1..], t, i) {
      assert s[1..][i..i + |t|] == s[i + 1..i + 1 + |t|];
      assert OccursAt(s, t, i + 1);
    }
  }

  /** Every string includes the empty string. */
  lemma IncludesEmpty(s: string)
    ensures Includes(s, "")
  {
    assert OccursAt(s, "", 0);
  }

  // ---------------------------------------------------------------------------
  // Decimal formatting of integers

  function DigitChar(d: int): (c: char)
    requires 0 <= d < 10
    ensures '0' <= c <= '9'
  {
    ('0' as int + d) as char
  }

  function DigitValue(c: char): int {
    c as int - '0' as int
  }

  /** Decimal digits of `n`, most significant first, with no leading zero. */
  function NatToString(n: nat): (r: string)
    ensures |r| >= 1
    ensures forall i :: 0 <= i < |r| ==> '0' <= r[i] <= '9'
    ensures r[0] == '0' ==> n == 0
    decreases n
  {
    if n < 10 then [DigitChar(n)] else NatToString(n / 10) + [DigitChar(n % 10)]
  }

  /** Decimal rendering of an integer, as JavaScript template literals and
      invariant-culture `ToString()` print it. */
  function IntToString(n: int): (r: string)
    ensures |r| >= 1
    ensures forall i :: 0 <= i < |r| ==> r[i] == '-' || '0' <= r[i] <= '9'
    ensures r[0] == '-' <==> n < 0
    ensures n < 0 ==> |r| >= 2 && r[1] != '0'
    ensures r[0] == '0' ==> n == 0
  {
    if n < 0 then "-" + NatToString(-n) else NatToString(n)
  }

  /** Reads a string of decimal digits back as a number. */
  function ParseNat(s: string): int
    decreases |s|
  {
    if |s| == 0 then 0 else ParseNat(s[..|s| - 1]) * 10 + DigitValue(s[|s| - 1])
  }

  /** Reads the rendering of `IntToString` back as a number. */
  function ParseInt(s: string): int {
    if |s| > 0 && s[0] == '-' then -ParseNat(s[1..]) else ParseNat(s)
  }

  lemma {:induction false} ParseNatToString(n: nat)
    ensures ParseNat(NatToString(n)) == n
    decreases n
  {
    if n >= 10 {
      var s := NatToString(n / 10) + [DigitChar(n % 10)];
      assert s[..|s| - 1] == NatToString(n / 10);
      ParseNatToString(n / 10);
    }
  }

  /** Formatting an integer loses nothing: it can be read back. */
  lemma IntToStringRoundTrip(n: int)
    ensures ParseInt(IntToString(n)) == n
  {
    if n < 0 {
      assert IntToString(n)[1..] == NatToString(-n);
      ParseNatToString(-n);
    } else {
      ParseNatToString(n);
    }
  }

  /** Different integers have different renderings. */
  lemma IntToStringInjective(m: int, n: int)
    ensures IntToString(m) == IntToString(n) ==> m == n
  {
    IntToStringRoundTrip(m);
    IntToStringRoundTrip(n);
  }

  // ---------------------------------------------------------------------------
  // Joining and splitting on a separator

  /** The fields separated by `sep`, as an interpolated line `a,b,c` lays them out. */
  function Join(fields: seq<string>, sep: char): string
    decreases |fields|
  {
    if |fields| == 0 then ""
    else if |fields| == 1 then fields[0]
    else fields[0] + [sep] + Join(fields[1..], sep)
  }

  /** Cuts `s` at every occurrence of `sep`. */
  function Split(s: string, sep: char): (r: seq<string>)
    ensures |r| >= 1
    decreases |s|
  {
    if |s| == 0 then [""]
    else
      var rest := Split(s[1..], sep);
      if s[0] == sep then [""] + rest else [[s[0]] + rest[0]] + rest[1..]
  }

  lemma {:induction false} SplitNoSep(f: string, sep: char)
    requires sep !in f
    ensures Split(f, sep) == [f]
    decreases |f|
  {
    if |f| > 0 {
      SplitNoSep(f[1..], sep);
      assert [f[0]] + f[1..] == f;
    }
  }

  lemma {:induction false} SplitCons(f: string, sep: char, t: string)
    requires sep !in f
    ensures Split(f + [sep] + t, sep) == [f] + Split(t, sep)
    decreases |f|
  {
    var s := f + [sep] + t;
    if |f| == 0 {
      assert s[1..] == t;
    } else {
      assert s[1..] == f[1..] + [sep] + t;
      SplitCons(f[1..], sep, t);
      assert [f[0]] + f[1..] == f;
    }
  }

  /** Splitting a joined line gives the fields back, provided no field
      contains the separator. */
  lemma {:induction false} SplitJoin(fields: seq<string>, sep: char)
    requires |fields| >= 1
    requires forall i :: 0 <= i < |fields| ==> sep !in fields[i]
    ensures Split(Join(fields, sep), sep) == fields
    decreases |fields|
  {
    if |fields| == 1 {
      SplitNoSep(fields[0], sep);
    } else {
      SplitJoin(fields[1..], sep);
      SplitCons(fields[0], sep, Join(fields[1..], sep));
    }
  }

  /** The joined line ends with the separator followed by the last field. */
  lemma {:induction false} JoinEndsWithLast(fields: seq<string>, sep: char)
    requires |fields| >= 2
    ensures EndsWith(Join(fields, sep), [sep] + fields[|fields| - 1])
    decreases |fields|
  {
    if |fields| > 2 {
      JoinEndsWithLast(fields[1..], sep);
    }
  }

  predicate EndsWith(s: string, suffix: string) {
    |suffix| <= |s| && s[|s| - |suffix|..] == suffix
  }

  predicate StartsWith(s: string, prefix: string) {
    |prefix| <= |s| && s[..|prefix|] == prefix
  }
}

=== FILE: transaction_history.dfy ===
/** The transaction table of the client: the icon and the badge colour of a
    transaction type, and the fallback for a missing reference. */
module TransactionHistory {
  import opened Wrappers

  datatype Shape = ArrowUpCircle | ArrowDownCircle | RefreshCw | PackageBox
  datatype Tone = Green | Red | Blue | Gray

  /** An icon of the table: its shape and its colour. */
  datatype Icon = Icon(shape: Shape, tone: Tone)

  const InflowIcon := Icon(ArrowUpCircle, Green)
  const OutflowIcon := Icon(ArrowDownCircle, Red)
  const AdjustmentIcon := Icon(RefreshCw, Blue)
  const OtherIcon := Icon(PackageBox, Gray)

  const InflowColor := "bg-green-100 text-green-800"
  const OutflowColor := "bg-red-100 text-red-800"
  const AdjustmentColor := "bg-blue-100 text-blue-800"
  const OtherColor := "bg-gray-100 text-gray-800"

  /** Stock came in: a purchase or a return. */
  predicate IsInflow(t: string) {
    t == "Purchase" || t == "Return"
  }

  /** `getTransactionIcon`. */
  function TransactionIcon(t: string): (r: Icon)
    ensures r == InflowIcon <==> IsInflow(t)
    ensures r == OutflowIcon <==> t == "Sale"
    ensures r == AdjustmentIcon <==> t == "Adjustment"
    ensures r == OtherIcon <==> !IsInflow(t) && t != "Sale" && t != "Adjustment"
  {
    match t
    case "Purchase" => InflowIcon
    case "Return" => InflowIcon
    case "Sale" => OutflowIcon
    case "Adjustment" => AdjustmentIcon
    case _ => OtherIcon
  }

  /** `getTransactionColor`. */
  function TransactionColor(t: string): (r: string)
    ensures r == InflowColor <==> IsInflow(t)
    ensures r == OutflowColor <==> t == "Sale"
    ensures r == AdjustmentColor <==> t == "Adjustment"
    ensures r == OtherColor <==> !IsInflow(t) && t != "Sale" && t != "Adjustment"
  {
    assert InflowColor[5] != OutflowColor[5] && InflowColor[5] != AdjustmentColor[5] && InflowColor[5] != OtherColor[5];
    assert OutflowColor[5] != AdjustmentColor[5] && OutflowColor[5] != OtherColor[5] && AdjustmentColor[5] != OtherColor[5];
    match t
    case "Purchase" => InflowColor
    case "Return" => InflowColor
    case "Sale" => OutflowColor
    case "Adjustment" => AdjustmentColor
    case _ => OtherColor
  }

  /** The two switches put types into the same classes: two types share an
      icon exactly when they share a badge colour. */
  lemma IconAndColorAgree(s: string, t: string)
    ensures TransactionIcon(s) == TransactionIcon(t) <==> TransactionColor(s) == TransactionColor(t)
  {
  }

  /** `transaction.reference || '-'`: an absent or empty reference shows as "-". */
  function ReferenceText(reference: Option<string>): (r: string)
    ensures reference.None? || reference.value == "" ==> r == "-"
    ensures reference.Some? && reference.value != "" ==> r == reference.value
    ensures |r| > 0
  {
    match reference
    case None => "-"
    case Some(text) => if text == "" then "-" else text
  }
}

=== FILE: wrappers.dfy ===
/** Optional values and success/failure results shared by the whole model. */
module Wrappers {

  /** A value that may be absent: a nullable reference, an optional JSON
      property, or a `Nullable<T>` field of a request body. */
  datatype Option<+T> = None | Some(value: T) {

    /** The carried value, or `default` when there is none. */
    function GetOr(default: T): T {
      match this
      case Some(v) => v
      case None => default
    }
  }

  /** The outcome of an operation that can be refused. */
  datatype Result<+R, +E> = Success(value: R) | Failure(error: E)
}
